=== FILE: README.md ===
# beampy slide cache, modelled in Dafny

This project models the render cache of beampy (`beampy/cache.py`). Beampy
builds slides out of elements ("modules": text, figures, TikZ, ...). The cache
memoizes each element's rendered SVG, HTML and JavaScript output across runs,
so an unchanged element is not rendered again. The model has three parts:

- **Element ids** (`create_element_id`), in module `ElementIds`
  (`element_id.dfy`). Optional facets of an element are concatenated in a
  fixed order: slide id, `key:value` args, render name, `str(content)`,
  `(w,h)`, position on the slide, extra attributes. The result is hashed.
  The id is `None` when the text is empty. A hash already registered on the
  current slide is fatal. `CreateElementId` is the step-by-step construction
  (the `+=` sequence and its two loops). It is proved equal to the
  compositional reference `ElementId`.
- **Store lifecycle** (`__init__`, `remove_files`, `clear`, `write_cache`),
  in modules `CacheRecords`, `Folders` and `CacheStore`. The data dictionary
  is loaded from the cache folder. It is reset, together with every
  `*.pklz` file, when its version or optimize flag differs from the current
  run. Otherwise its glyphs are handed to the global store. Either way the
  current version and flag are stamped onto it.
- **Record and lookup** (`add_to_cache`, `is_cached`, `write_file_cache`,
  `read_file_cache`), in module `CacheStore`. Recording stores size, blob
  names and the source file's mtime. Lookup hits when the id is recorded and
  the entry is fresh. On a hit the blobs and size are put back onto the
  element. Cross-operation properties are in module `CacheLemmas`
  (`cache_lemmas.dfy`).

Every store operation is a pure state transition. It takes the data
dictionary (`CacheData`) and the folder (`Option<Files>`, where `None` means
the folder does not exist). It returns either the new state or a
`CacheError` where the Python code raises or exits.

How the program's environment is represented:

- md5 is a parameter `hash: string -> Digest`. A `Digest` is 32 lower-case
  hex characters. So an element id can never be one of the dictionary's
  reserved keys `version`, `optimize` or `glyphs`. This is why the model
  keeps those keys in separate fields instead of one mixed dictionary.
- `os.path.getmtime` is an oracle `mtimes: map<string, Mtime>` listing the
  readable paths.
- `tempfile.mktemp` is a `TempNames` value: the random suffixes after the
  `svgout_`, `htmlout_` and `jsout_` prefixes. The three prefixes alone keep
  the three blob files apart.
- `gcs()` and `document._slides[gcs()].element_keys` are a `SlideContext`
  parameter. The document's global store is reduced to its `glyphs` value.
- gzip and pickle are reversible, so a file holds what was written. A file
  is either `Blob(bytes)` or `Dump(data)`.

Quirks of `cache.py` that the model keeps:
- `add_to_cache` skips elements whose `type` is `group`, while `is_cached`
  skips elements whose `name` is `group`. `NamedGroupIsRecordedButNeverHit`
  shows the result.
- Facets are joined with no delimiter. `UndelimitedFacetsCollide` shows two
  different elements with one id.
- Blob names are the `mktemp` names recorded in the entry.
- The reset deletes every file `glob('*.pklz')` lists, the data file
  included. A file whose name starts with a dot is not listed, so it stays.
- The fatal duplicate-id path calls `sys.exit(0)`, i.e. exit status 0.

## Model

| member | source | states |
|---|---|---|
| `ElementIds.ElementId` | beampy/cache.py:261-272 | an id that is returned is never one already registered on the current slide; a duplicate error names a registered id |
| `ElementIds.CreateElementId` | beampy/cache.py:211-272 | the facet-by-facet construction, with its loops over `args` and `args_for_cache_id`, yields exactly the reference id (same text, same `None`, same fatal duplicate, same failure when size is asked of an element without `args`) |
| `ElementIds.BuildIdText` | beampy/cache.py:221-257 | the `ct_to_hash` buffer, grown one enabled facet at a time, ends as exactly the reference id text |
| `ElementIds.JoinArgsLoop` | beampy/cache.py:226-227 | the loop joining `key:value` pairs produces every pair in order with no separator between pairs |
| `ElementIds.ExtraTextLoop` | beampy/cache.py:251-257 | the loop over `args_for_cache_id` appends exactly the readable attributes' text in list order |
| `ElementIds.SizeText` | beampy/cache.py:235-246 | the size facet is `(w,h)` where each side is independently the declared value or the literal `None` when the key is absent |
| `Elements.ArgValue` | beampy/cache.py:236-244 | a key of `args` is found exactly when some pair carries it, and the value read is that pair's value |
| `ElementIds.IdIsNoneIffNoFacetText` | beampy/cache.py:221-262 | the id is `None` exactly when all seven facets contribute empty text |
| `ElementIds.IdIsHashOfFacets` | beampy/cache.py:221-269 | otherwise the id is the hash of slide, args, name, content, size, position (the decimal digits of the slide's element count, `NatToString`) and extra facets in that order, or a fatal duplicate when that hash is already registered |
| `ElementIds.ExtraTextAppend` | beampy/cache.py:251-257 | adding an attribute name appends its text when readable and nothing (no error) when it cannot be read |
| `ElementIds.CacheIdIgnoresPlacement` | beampy/cache.py:140 | the text the store hashes depends only on name, content and extra attributes, not on slide, args or position; the id itself is the same whenever that hash is registered on neither slide, while whether the call is fatal still depends on the slide's registered ids |
| `ElementIds.UndelimitedFacetsCollide` | beampy/cache.py:229-233 | two different elements (name `ab` + content `c`, name `a` + content `bc`) receive the same id |
| `CacheRecords.FileMtime` | beampy/cache.py:126-129 | a time is recorded exactly when the content names a readable path, and it is that path's mtime |
| `Folders.WriteFileCache` | beampy/cache.py:197-200 | reading the blob back returns the written bytes; other blobs read as before; a missing folder fails |
| `Folders.ReadFileCache` | beampy/cache.py:202-208 | a read succeeds only for an existing blob file, and returns its bytes |
| `Folders.RemoveFiles` | beampy/cache.py:67-69 | no file the `*.pklz` glob matches survives (the data file included); every other file is kept unchanged |
| `Folders.RemovedBlobsAreGone` | beampy/cache.py:67-69 | after removal no non-hidden blob name can be read back |
| `CacheStore.LoadData` | beampy/cache.py:36-43 | an existing data file is loaded, a folder without one or a missing folder gives the empty dictionary, an unreadable data file fails |
| `CacheStore.Init` | beampy/cache.py:25-65 | the result always carries the current version and optimize flag; on a mismatch entries are dropped, glob-matched files removed and the global glyphs untouched; on a match entries, glyphs and files are kept and stored glyphs reach the global store |
| `CacheStore.Clear` | beampy/cache.py:71-76 | fails exactly when the folder still holds files; otherwise the folder is gone and the dictionary empty |
| `CacheStore.WriteCache` | beampy/cache.py:176-194 | entries, version and flag unchanged; glyphs copied only when the global store has them; the data file then loads back as the dictionary; exactly the data file is added or replaced, and every other file in the folder is kept unchanged |
| `CacheStore.WriteOutput` | beampy/cache.py:106-121 | an absent output writes nothing; a present one can be read back under its name, adds only that file to the folder and leaves every other file alone |
| `CacheStore.BlobPathsDiffer` | beampy/cache.py:108-119 | the svg, html and js blob files of one entry are pairwise distinct |
| `CacheStore.AddToCache` | beampy/cache.py:78-129 | unchanged for `type` group, unrendered or id-less elements; otherwise the entry holds width and height, records for each output that exists the fresh `svgout_`/`htmlout_`/`jsout_` temp name (and no name for an absent one), the blob under that name reads back as the output, has `file_id` exactly when the mtime is readable, and no other entry changes; no folder file other than the written output blobs is added or changed; with no folder, an element that has an output fails and a successful call leaves the folder missing |
| `CacheStore.RestoreOutput` | beampy/cache.py:166-169 | a named output is replaced by its blob's bytes, an unnamed one is left alone |
| `CacheStore.Restore` | beampy/cache.py:164-172 | on success the element gets the stored size and the stored outputs, and nothing else about it changes |
| `CacheStore.IsCached` | beampy/cache.py:133-174 | a hit exactly when the name is not group, the id is recorded and the entry is fresh (`Fresh`: no `file_id`, or one equal to the current mtime); a miss returns the element untouched |
| `CacheLemmas.RecordThenLookupHits` | beampy/cache.py:103-172 | recording then looking up with the source file unchanged is a hit that gives back the recorded element exactly |
| `CacheLemmas.TouchedSourceIsStale` | beampy/cache.py:153-162 | moving the source file's time, or losing the file, makes the entry a miss; restoring the time makes it a hit again |
| `CacheLemmas.FlushThenReload` | beampy/cache.py:36-65 | flushing then constructing with the same version and flag restores the flushed store and hands its glyphs to the global store |
| `CacheLemmas.OtherRunResets` | beampy/cache.py:45-54 | constructing under another version or optimize flag drops every entry and no earlier blob can be read |
| `CacheLemmas.FlushIsIdempotent` | beampy/cache.py:189-194 | flushing twice writes the same state as flushing once |
| `CacheLemmas.ClearedStoreCannotFlush` | beampy/cache.py:71-76 | after a successful clear the data file cannot be written |
| `CacheLemmas.GroupsBypassCache` | beampy/cache.py:87-139 | a group element is never recorded and never a hit |
| `CacheLemmas.NamedGroupIsRecordedButNeverHit` | beampy/cache.py:87-139 | an element named group but of another type is recorded yet always a miss |

## Left out

- gzip compression and pickle serialisation: files hold their contents
  directly, and a data file that is not a dumped dictionary is reported as
  corrupt. Reading the data file as a blob (a blob named `data`) reports it
  as corrupt rather than returning the pickle's bytes. `mktemp` names never
  produce that name.
- md5 and the Python 2/3 `str`-versus-bytes hashing detail: the hash is a
  parameter returning a 32-character hex digest.
- `tempfile.mktemp` randomness: the suffixes are a parameter. `mktemp`
  checks freshness against the working directory, not the cache folder, so
  the model does not assume fresh names. A write simply replaces any file of
  the same name.
- `os.path.getmtime`, `os.mkdir`, `os.path.isdir`, `glob`: a map of readable
  paths and their (integer) times, and an optional flat folder. A
  non-directory file at the folder's path is not modelled.
- `os.removedirs` also removes empty parent directories. Only the cache
  folder itself is modelled, and its non-empty failure is an error result.
- `print` logging. The `sys.exit(0)` on a duplicate id is a `DuplicateId`
  error.
- The `gcs()` / `document` globals are explicit parameters. A lookup of a
  slide that does not exist (a `KeyError`) is not modelled.
- `update_size` is external code. It is modelled only by its effect on the
  element's width and height.
- State changed before an exception is lost. The Python object keeps a
  half-filled entry when a blob write fails. It keeps glyphs copied into the
  dictionary when the data file cannot be opened. It keeps outputs set on
  the element before a later blob read fails. In the model an error result
  carries no state.
- The unused `slide` argument of `add_to_cache` and `is_cached`.
- Element argument values and extra attributes are taken in their `str`
  form. `content` is one string, used both as `str(content)` and as the
  path given to `getmtime`. Argument keys are unique, as in a dict.
- Loaded data holding a `version` or `optimize` value of an unexpected type:
  these are modelled as optional strings and booleans.
- Extra attributes named in `args_for_cache_id` are read from the element's
  `attributes` map, which is independent of its other fields. In the code
  `getattr` can also reach the element's own fields (`content`, `name`,
  `svgout`, its size). After a hit, `setattr` and `update_size`
  (beampy/cache.py:169, 172) change those fields, and so the id such an
  element would get next. `Restore` leaves `attributes` alone, so the model
  does not track that change.
- The commented-out dead code at beampy/cache.py:99-101, 147-150 and 181-187.

=== FILE: cache_lemmas.dfy ===
/** Properties that relate several store operations: recording then looking
    up, staleness of file-backed entries, flushing then reloading, and the
    global reset. */
module CacheLemmas {
  import opened Common
  import opened Elements
  import opened ElementIds
  import opened CacheRecords
  import opened Folders
  import opened CacheStore

  /** Recording an element and then looking it up, with the source file
      unchanged, is a hit that restores exactly the recorded outputs and
      size: the element comes back as it was recorded. */
  lemma RecordThenLookupHits(c: Cache, e: Element, ctx: SlideContext, hash: string -> Digest,
                             mtimes: map<string, Mtime>, names: TempNames)
    requires Recordable(e) && e.name != Some(GroupKind)
    requires ElementId(e, CacheFacets, ctx, hash).Ok? && ElementId(e, CacheFacets, ctx, hash).value.Some?
    requires AddToCache(c, e, ctx, hash, mtimes, names).Ok?
    ensures IsCached(AddToCache(c, e, ctx, hash, mtimes, names).value, e, ctx, hash, mtimes)
            == Ok(Lookup(true, e))
  {
  }

  /** A recorded file-backed element goes stale when its file's time moves
      to any other value, and when the file can no longer be read; putting
      the old time back makes it a hit again. */
  lemma TouchedSourceIsStale(c: Cache, e: Element, ctx: SlideContext, hash: string -> Digest,
                             mtimes: map<string, Mtime>, names: TempNames, t: Mtime)
    requires Recordable(e) && e.name != Some(GroupKind)
    requires ElementId(e, CacheFacets, ctx, hash).Ok? && ElementId(e, CacheFacets, ctx, hash).value.Some?
    requires AddToCache(c, e, ctx, hash, mtimes, names).Ok?
    requires e.content.Some? && e.content.value in mtimes && mtimes[e.content.value] != t
    ensures var c' := AddToCache(c, e, ctx, hash, mtimes, names).value;
      && IsCached(c', e, ctx, hash, mtimes[e.content.value := t]) == Ok(Lookup(false, e))
      && IsCached(c', e, ctx, hash, mtimes - {e.content.value}) == Ok(Lookup(false, e))
      && IsCached(c', e, ctx, hash, mtimes[e.content.value := t][e.content.value := mtimes[e.content.value]])
         == Ok(Lookup(true, e))
  {
  }

  /** Flushing and then constructing a store for the same version and
      optimize flag gives back the flushed store unchanged, and the flushed
      glyphs (if any) reach the global store. */
  lemma FlushThenReload(c: Cache, version: string, optimize: bool,
                        glyphs: Option<GlyphDefs>, later: Option<GlyphDefs>)
    requires SameRun(c.data, version, optimize)
    requires WriteCache(c, glyphs).Ok?
    ensures var flushed := WriteCache(c, glyphs).value;
      Init(flushed.folder, version, optimize, later)
      == Ok(Session(flushed, if flushed.data.glyphs.Some? then flushed.data.glyphs else later))
  {
  }

  /** A store constructed under another version or another optimize flag
      drops every entry, and no blob written by the earlier run can be read
      back. */
  lemma OtherRunResets(folder: Option<Files>, version: string, optimize: bool,
                           glyphs: Option<GlyphDefs>, name: string)
    requires LoadData(folder).Ok? && !SameRun(LoadData(folder).value.1, version, optimize)
    requires name != [] && name[0] != '.'
    ensures Init(folder, version, optimize, glyphs).Ok?
    ensures Init(folder, version, optimize, glyphs).value.cache.data.entries == map[]
    ensures ReadFileCache(Init(folder, version, optimize, glyphs).value.cache.folder, name).Err?
  {
    RemovedBlobsAreGone(LoadData(folder).value.0, name);
  }

  /** Flushing twice in a row writes the same state as flushing once. */
  lemma FlushIsIdempotent(c: Cache, glyphs: Option<GlyphDefs>)
    requires WriteCache(c, glyphs).Ok?
    ensures WriteCache(WriteCache(c, glyphs).value, glyphs) == WriteCache(c, glyphs)
  {
    var once := WriteCache(c, glyphs).value;
    var twice := WriteCache(once, glyphs).value;
    assert twice.data == once.data;
    assert twice.folder.value == once.folder.value[DataFile := Dump(once.data)];
    assert once.folder.value[DataFile] == Dump(once.data);
    assert twice.folder.value == once.folder.value;
  }

  /** A successful `clear` removes the folder, so a later flush cannot open
      the data file. */
  lemma ClearedStoreCannotFlush(c: Cache, glyphs: Option<GlyphDefs>)
    requires Clear(c).Ok?
    ensures WriteCache(Clear(c).value, glyphs).Err?
  {
  }

  /** Elements of the group kind bypass the cache: nothing is recorded for
      them and a lookup is always a miss that leaves them untouched. */
  lemma GroupsBypassCache(c: Cache, e: Element, ctx: SlideContext, hash: string -> Digest,
                          mtimes: map<string, Mtime>, names: TempNames)
    requires e.kind == GroupKind && e.name == Some(GroupKind)
    ensures AddToCache(c, e, ctx, hash, mtimes, names) == Ok(c)
    ensures IsCached(c, e, ctx, hash, mtimes) == Ok(Lookup(false, e))
  {
  }

  /** Recording tests the element's `type` but lookup tests its `name`: an
      element named `group` whose type is something else is recorded, yet
      never reported as cached. */
  lemma NamedGroupIsRecordedButNeverHit(c: Cache, e: Element, ctx: SlideContext, hash: string -> Digest,
                                        mtimes: map<string, Mtime>, names: TempNames)
    requires Recordable(e) && e.name == Some(GroupKind)
    requires ElementId(e, CacheFacets, ctx, hash).Ok? && ElementId(e, CacheFacets, ctx, hash).value.Some?
    requires AddToCache(c, e, ctx, hash, mtimes, names).Ok?
    ensures var c' := AddToCache(c, e, ctx, hash, mtimes, names).value;
      && ElementId(e, CacheFacets, ctx, hash).value.value in c'.data.entries
      && IsCached(c', e, ctx, hash, mtimes) == Ok(Lookup(false, e))
  {
  }
}

=== FILE: cache_records.dfy ===
/** The cache's data dictionary. In `cache.py` it is one Python
    dict holding three reserved keys (`version`, `optimize`, `glyphs`) next
    to one entry per element id; since an element id is an md5 hex digest it
    never equals a reserved key, so the model keeps the two parts apart. */
module CacheRecords {
  import opened Common
  import opened Elements
  import opened ElementIds

  /** A file modification time as `os.path.getmtime` reports it. */
  type Mtime = int

  /** Shared glyph definitions kept in the document's global store. */
  type GlyphDefs = map<string, string>

  /** The record kept for one element id: its size, the blob names of the
      outputs it had, and the source file's modification time when its
      content named a readable file. */
  datatype Entry = Entry(
    width: Length,
    height: Length,
    svgout: Option<string>,
    htmlout: Option<string>,
    jsout: Option<string>,
    fileId: Option<Mtime>)

  datatype CacheData = CacheData(
    version: Option<string>,
    optimize: Option<bool>,
    glyphs: Option<GlyphDefs>,
    entries: map<Digest, Entry>)

  /** The empty dict `{}`. */
  const EmptyData := CacheData(None, None, None, map[])

  /** `os.path.getmtime(content)`: the oracle `mtimes` lists every path whose
      modification time can be read; a missing content or unreadable path
      yields no time. */
  function FileMtime(mtimes: map<string, Mtime>, content: Option<string>): (t: Option<Mtime>)
    ensures t.Some? <==> content.Some? && content.value in mtimes
    ensures t.Some? ==> t.value == mtimes[content.value]
  {
    if content.Some? && content.value in mtimes then Some(mtimes[content.value]) else None
  }
}

=== FILE: cache_store.dfy ===
/** The `cache_slides` store: loading and resetting the data dictionary,
    recording rendered elements, looking them up, flushing and clearing.
    Every operation is a state transition over the data dictionary and the
    cache folder; an operation that raises in `cache.py` returns
    an error instead. */
module CacheStore {
  import opened Common
  import opened Elements
  import opened ElementIds
  import opened CacheRecords
  import opened Folders

  /** The store's state: its data dictionary and its folder. */
  datatype Cache = Cache(data: CacheData, folder: Option<Files>)

  /** A store just built, together with the `glyphs` value of the document's
      global store after construction. */
  datatype Session = Session(cache: Cache, glyphs: Option<GlyphDefs>)

  /** The answer of `is_cached`, with the element as it is afterwards. */
  datatype Lookup = Lookup(hit: bool, element: Element)

  /** The random parts `tempfile.mktemp` appends to the three blob prefixes. */
  datatype TempNames = TempNames(svg: string, html: string, js: string)

  function SvgName(t: TempNames): string { "svgout_" + t.svg }
  function HtmlName(t: TempNames): string { "htmlout_" + t.html }
  function JsName(t: TempNames): string { "jsout_" + t.js }

  /** Whether a loaded dictionary was written by this version with this
      optimize flag. */
  predicate SameRun(d: CacheData, version: string, optimize: bool) {
    d.version == Some(version) && d.optimize == Some(optimize)
  }

  /** Reading the folder at construction: an existing folder with a data
      file is loaded, an existing folder without one starts empty, and a
      missing folder is created empty. A data file that does not hold a
      dumped dictionary cannot be unpickled. */
  function LoadData(folder: Option<Files>): (r: Result<(Files, CacheData), CacheError>)
    ensures r.Err? <==> folder.Some? && DataFile in folder.value && folder.value[DataFile].Blob?
    ensures r.Ok? && folder.Some? ==> r.value.0 == folder.value
    ensures r.Ok? && folder.None? ==> r.value == (map[], EmptyData)
    ensures r.Ok? && folder.Some? && DataFile !in folder.value ==> r.value.1 == EmptyData
    ensures r.Ok? && folder.Some? && DataFile in folder.value ==> folder.value[DataFile] == Dump(r.value.1)
  {
    match folder
    case None => Ok((map[], EmptyData))
    case Some(files) =>
      if DataFile !in files then Ok((files, EmptyData))
      else match files[DataFile]
        case Dump(d) => Ok((files, d))
        case Blob(_) => Err(CorruptFile(DataFile))
  }

  /** `cache_slides.__init__`: a dictionary from another version or another
      optimize setting is dropped together with every `*.pklz` file; a
      matching one keeps its entries and hands its glyphs to the global
      store. Either way the result carries the current version and flag. */
  function Init(folder: Option<Files>, version: string, optimize: bool, glyphs: Option<GlyphDefs>)
    : (r: Result<Session, CacheError>)
    ensures r.Err? <==> LoadData(folder).Err?
    ensures r.Ok? ==> r.value.cache.data.version == Some(version)
                      && r.value.cache.data.optimize == Some(optimize)
                      && r.value.cache.folder.Some?
    ensures r.Ok? && SameRun(LoadData(folder).value.1, version, optimize) ==>
      var (files, loaded) := LoadData(folder).value;
      && r.value.cache.data.entries == loaded.entries
      && r.value.cache.data.glyphs == loaded.glyphs
      && r.value.cache.folder == Some(files)
      && r.value.glyphs == (if loaded.glyphs.Some? then loaded.glyphs else glyphs)
    ensures r.Ok? && !SameRun(LoadData(folder).value.1, version, optimize) ==>
      var files := LoadData(folder).value.0;
      && r.value.cache.data.entries == map[]
      && r.value.cache.data.glyphs.None?
      && r.value.cache.folder == Some(RemoveFiles(files))
      && r.value.glyphs == glyphs
  {
    var (files, loaded) :- LoadData(folder);
    var (data, files', glyphs') :=
      if !SameRun(loaded, version, optimize) then (EmptyData, RemoveFiles(files), glyphs)
      else (loaded, files, if loaded.glyphs.Some? then loaded.glyphs else glyphs);
    Ok(Session(Cache(data.(version := Some(version), optimize := Some(optimize)), Some(files')), glyphs'))
  }

  /** `clear`: removes the folder, which fails when it still holds files,
      and empties the data dictionary. */
  function Clear(c: Cache): (r: Result<Cache, CacheError>)
    ensures r.Err? <==> c.folder.Some? && c.folder.value != map[]
    ensures r.Ok? ==> r.value.data == EmptyData && r.value.folder.None?
  {
    if c.folder.Some? && c.folder.value != map[] then Err(DirectoryNotEmpty)
    else Ok(Cache(EmptyData, None))
  }

  /** `write_cache`: copies the global store's glyphs into the dictionary
      when there are any, then dumps the dictionary to the data file. */
  function WriteCache(c: Cache, glyphs: Option<GlyphDefs>): (r: Result<Cache, CacheError>)
    ensures r.Err? <==> c.folder.None?
    ensures r.Ok? ==> && r.value.data.entries == c.data.entries
                      && r.value.data.version == c.data.version
                      && r.value.data.optimize == c.data.optimize
                      && r.value.data.glyphs == (if glyphs.Some? then glyphs else c.data.glyphs)
    ensures r.Ok? ==> r.value.folder.Some? && LoadData(r.value.folder) == Ok((r.value.folder.value, r.value.data))
    ensures r.Ok? ==> forall m :: BlobPath(m) != DataFile ==> ReadFileCache(r.value.folder, m) == ReadFileCache(c.folder, m)
    ensures r.Ok? ==> && r.value.folder.value.Keys == c.folder.value.Keys + {DataFile}
                      && forall p :: p in c.folder.value && p != DataFile ==> r.value.folder.value[p] == c.folder.value[p]
  {
    var data := if glyphs.Some? then c.data.(glyphs := glyphs) else c.data;
    if c.folder.None? then Err(FileNotFound(DataFile))
    else
      var files := c.folder.value[DataFile := Dump(data)];
      Ok(Cache(data, Some(files)))
  }

  /** Writes one output as a blob when the element has it. */
  function WriteOutput(folder: Option<Files>, name: string, out: Option<Bytes>): (r: Result<Option<Files>, CacheError>)
    ensures out.None? ==> r == Ok(folder)
    ensures out.Some? ==> (r.Err? <==> folder.None?)
    ensures r.Ok? && out.Some? ==> ReadFileCache(r.value, name) == Ok(out.value)
    ensures r.Ok? ==> r.value.Some? == folder.Some?
    ensures r.Ok? ==> forall m :: BlobPath(m) != BlobPath(name) ==> ReadFileCache(r.value, m) == ReadFileCache(folder, m)
    ensures r.Ok? && folder.Some? ==>
      && r.value.value.Keys == folder.value.Keys + (if out.Some? then {BlobPath(name)} else {})
      && forall p :: p in folder.value && p != BlobPath(name) ==> r.value.value[p] == folder.value[p]
  {
    match out
    case None => Ok(folder)
    case Some(b) =>
      var files :- WriteFileCache(folder, name, b);
      Ok(Some(files))
  }

  /** The entry `add_to_cache` records for an element. */
  function NewEntry(e: Element, names: TempNames, mtimes: map<string, Mtime>): Entry {
    Entry(e.width, e.height,
          if e.svgout.Some? then Some(SvgName(names)) else None,
          if e.htmlout.Some? then Some(HtmlName(names)) else None,
          if e.jsout.Some? then Some(JsName(names)) else None,
          FileMtime(mtimes, e.content))
  }

  /** The blob files `add_to_cache` writes for an element: one per output
      the element has. */
  function OutputPaths(e: Element, names: TempNames): set<string> {
    (if e.svgout.Some? then {BlobPath(SvgName(names))} else {})
    + (if e.htmlout.Some? then {BlobPath(HtmlName(names))} else {})
    + (if e.jsout.Some? then {BlobPath(JsName(names))} else {})
  }

  /** Whether `add_to_cache` goes as far as computing an id: the element's
      `type` is not `group` and it has been rendered. */
  predicate Recordable(e: Element) {
    e.kind != GroupKind && e.rendered
  }

  /** The three blob files live at pairwise different paths, since their
      names start with different prefixes. */
  lemma BlobPathsDiffer(names: TempNames)
    ensures BlobPath(SvgName(names)) != BlobPath(HtmlName(names))
    ensures BlobPath(SvgName(names)) != BlobPath(JsName(names))
    ensures BlobPath(HtmlName(names)) != BlobPath(JsName(names))
  {
    assert BlobPath(SvgName(names))[0] == 's';
    assert BlobPath(HtmlName(names))[0] == 'h';
    assert BlobPath(JsName(names))[0] == 'j';
  }

  /** `add_to_cache`: for a rendered element that is not a group and has an
      id, a fresh entry replaces whatever the id held, each present output is
      written to its own blob, and the source file's time is recorded when it
      can be read. */
  function AddToCache(c: Cache, e: Element, ctx: SlideContext, hash: string -> Digest,
                      mtimes: map<string, Mtime>, names: TempNames): (r: Result<Cache, CacheError>)
    ensures !Recordable(e) ==> r == Ok(c)
    ensures Recordable(e) && ElementId(e, CacheFacets, ctx, hash) == Ok(None) ==> r == Ok(c)
    ensures Recordable(e) && ElementId(e, CacheFacets, ctx, hash).Err? ==> r.Err?
    ensures r.Ok? ==> && r.value.data.version == c.data.version
                      && r.value.data.optimize == c.data.optimize
                      && r.value.data.glyphs == c.data.glyphs
    ensures r.Ok? && Recordable(e) && ElementId(e, CacheFacets, ctx, hash).Ok?
                  && ElementId(e, CacheFacets, ctx, hash).value.Some? ==>
      var key := ElementId(e, CacheFacets, ctx, hash).value.value;
      var entries := r.value.data.entries;
      && key in entries
      && entries[key].width == e.width && entries[key].height == e.height
      && entries[key].svgout == (if e.svgout.Some? then Some(SvgName(names)) else None)
      && entries[key].htmlout == (if e.htmlout.Some? then Some(HtmlName(names)) else None)
      && entries[key].jsout == (if e.jsout.Some? then Some(JsName(names)) else None)
      && entries[key].fileId == FileMtime(mtimes, e.content)
      && (e.svgout.Some? ==> ReadFileCache(r.value.folder, entries[key].svgout.value) == Ok(e.svgout.value))
      && (e.htmlout.Some? ==> ReadFileCache(r.value.folder, entries[key].htmlout.value) == Ok(e.htmlout.value))
      && (e.jsout.Some? ==> ReadFileCache(r.value.folder, entries[key].jsout.value) == Ok(e.jsout.value))
      && (forall k :: k != key ==> (k in entries <==> k in c.data.entries))
      && (forall k :: k != key && k in entries ==> entries[k] == c.data.entries[k])
    ensures r.Ok? && c.folder.Some? ==>
      && r.value.folder.Some?
      && c.folder.value.Keys <= r.value.folder.value.Keys <= c.folder.value.Keys + OutputPaths(e, names)
      && forall p :: p in c.folder.value && p !in OutputPaths(e, names) ==>
                       p in r.value.folder.value && r.value.folder.value[p] == c.folder.value[p]
    ensures (&& Recordable(e) && ElementId(e, CacheFacets, ctx, hash).Ok? && ElementId(e, CacheFacets, ctx, hash).value.Some?
             && c.folder.None? && (e.svgout.Some? || e.htmlout.Some? || e.jsout.Some?)) ==> r.Err?
    ensures r.Ok? && c.folder.None? ==> r.value.folder.None?
    ensures r.Err? ==> Recordable(e) && (ElementId(e, CacheFacets, ctx, hash).Err? || c.folder.None?)
  {
    if !Recordable(e) then Ok(c)
    else
      var id :- ElementId(e, CacheFacets, ctx, hash);
      match id
      case None => Ok(c)
      case Some(key) =>
        var f1 :- WriteOutput(c.folder, SvgName(names), e.svgout);
        var f2 :- WriteOutput(f1, HtmlName(names), e.htmlout);
        var f3 :- WriteOutput(f2, JsName(names), e.jsout);
        BlobPathsDiffer(names);
        Ok(Cache(c.data.(entries := c.data.entries[key := NewEntry(e, names, mtimes)]), f3))
  }

  /** An entry may be reused when it tracks no source file, or when the
      file's current time (none if it cannot be read) equals the recorded
      one. */
  predicate Fresh(entry: Entry, e: Element, mtimes: map<string, Mtime>) {
    entry.fileId.None? || FileMtime(mtimes, e.content) == entry.fileId
  }

  /** The condition under which `is_cached` reports a hit: the element's
      `name` is not `group`, it has an id, the id is recorded, and the entry
      is fresh. */
  predicate HitCondition(c: Cache, e: Element, ctx: SlideContext, hash: string -> Digest,
                         mtimes: map<string, Mtime>) {
    && e.name != Some(GroupKind)
    && ElementId(e, CacheFacets, ctx, hash).Ok?
    && ElementId(e, CacheFacets, ctx, hash).value.Some?
    && ElementId(e, CacheFacets, ctx, hash).value.value in c.data.entries
    && Fresh(c.data.entries[ElementId(e, CacheFacets, ctx, hash).value.value], e, mtimes)
  }

  /** Reads back one output named by an entry; an output the entry does not
      name stays as it was. */
  function RestoreOutput(folder: Option<Files>, name: Option<string>, current: Option<Bytes>)
    : (r: Result<Option<Bytes>, CacheError>)
    ensures name.None? ==> r == Ok(current)
    ensures name.Some? ==> (r.Ok? <==> ReadFileCache(folder, name.value).Ok?)
    ensures name.Some? && r.Ok? ==> r.value == Some(ReadFileCache(folder, name.value).value)
  {
    match name
    case None => Ok(current)
    case Some(n) =>
      var b :- ReadFileCache(folder, n);
      Ok(Some(b))
  }

  /** The restoring half of a hit: `svgout`, `jsout`, `htmlout` are read back
      in that order, then the element's size is set to the recorded one. */
  function Restore(folder: Option<Files>, e: Element, entry: Entry): (r: Result<Element, CacheError>)
    ensures r.Ok? <==> && (entry.svgout.Some? ==> ReadFileCache(folder, entry.svgout.value).Ok?)
                       && (entry.jsout.Some? ==> ReadFileCache(folder, entry.jsout.value).Ok?)
                       && (entry.htmlout.Some? ==> ReadFileCache(folder, entry.htmlout.value).Ok?)
    ensures r.Ok? ==>
      && r.value.width == entry.width && r.value.height == entry.height
      && r.value.svgout == (if entry.svgout.Some? then Some(ReadFileCache(folder, entry.svgout.value).value) else e.svgout)
      && r.value.jsout == (if entry.jsout.Some? then Some(ReadFileCache(folder, entry.jsout.value).value) else e.jsout)
      && r.value.htmlout == (if entry.htmlout.Some? then Some(ReadFileCache(folder, entry.htmlout.value).value) else e.htmlout)
      && r.value.(svgout := e.svgout, jsout := e.jsout, htmlout := e.htmlout, width := e.width, height := e.height) == e
  {
    var svg :- RestoreOutput(folder, entry.svgout, e.svgout);
    var js :- RestoreOutput(folder, entry.jsout, e.jsout);
    var html :- RestoreOutput(folder, entry.htmlout, e.htmlout);
    Ok(e.(svgout := svg, jsout := js, htmlout := html).UpdateSize(entry.width, entry.height))
  }

  /** `is_cached`: a hit exactly under `HitCondition`, in which case the
      recorded outputs and size are put back onto the element; on a miss the
      element is returned untouched. Reading a recorded blob that is gone
      fails, as does an id already registered on the slide. */
  function IsCached(c: Cache, e: Element, ctx: SlideContext, hash: string -> Digest,
                    mtimes: map<string, Mtime>): (r: Result<Lookup, CacheError>)
    ensures r.Ok? && !r.value.hit ==> r.value.element == e
    ensures r.Ok? && r.value.hit ==> HitCondition(c, e, ctx, hash, mtimes)
    ensures HitCondition(c, e, ctx, hash, mtimes) ==>
      var entry := c.data.entries[ElementId(e, CacheFacets, ctx, hash).value.value];
      r == (match Restore(c.folder, e, entry)
            case Ok(restored) => Ok(Lookup(true, restored))
            case Err(err) => Err(err))
    ensures !HitCondition(c, e, ctx, hash, mtimes) ==>
      r == (if e.name != Some(GroupKind) && ElementId(e, CacheFacets, ctx, hash).Err?
            then Err(ElementId(e, CacheFacets, ctx, hash).error)
            else Ok(Lookup(false, e)))
  {
    if e.name == Some(GroupKind) then Ok(Lookup(false, e))
    else
      var id :- ElementId(e, CacheFacets, ctx, hash);
      if id.None? || id.value !in c.data.entries then Ok(Lookup(false, e))
      else
        var entry := c.data.entries[id.value];
        if !Fresh(entry, e, mtimes) then Ok(Lookup(false, e))
        else
          var restored :- Restore(c.folder, e, entry);
          Ok(Lookup(true, restored))
  }
}

=== FILE: common.dfy ===
/** Shared wrappers for the cache model: an optional value, a result that
    carries either a value or one of the cache's error conditions, and the
    error conditions themselves. */
module Common {

  /** A value that may be absent (Python's `None`). */
  datatype Option<+T> = None | Some(value: T)

  /** A value or an error; usable with `:-`. */
  datatype Result<+T, +E> = Ok(value: T) | Err(error: E) {

    predicate IsFailure() {
      Err?
    }

    function PropagateFailure<U>(): Result<U, E>
      requires Err?
    {
      Err(error)
    }

    function Extract(): T
      requires Ok?
    {
      value
    }
  }

  /** The ways a cache operation can stop instead of returning normally. */
  datatype CacheError =
    /** The computed element id is already registered on the current slide;
        `cache.py` prints a message and exits the process. */
    | DuplicateId(id: string)
    /** `use_size` was requested for an element that has no `args`. */
    | NoArgs
    /** A file (or the folder holding it) could not be opened. */
    | FileNotFound(path: string)
    /** A file exists but does not hold what the reader expects. */
    | CorruptFile(path: string)
    /** The cache folder could not be removed because it is not empty. */
    | DirectoryNotEmpty
}

=== FILE: element_id.dfy ===
/** The element-id builder `create_element_id`: optional facets of an element
    are concatenated, in a fixed order and with no delimiter, and the
    concatenation is hashed. */
module ElementIds {
  import opened Common
  import opened Elements

  predicate IsHexDigit(c: char) {
    '0' <= c <= '9' || 'a' <= c <= 'f'
  }

  /** An md5 hex digest: 32 lower-case hexadecimal characters. Such a string
      is never one of the reserved keys `version`, `optimize`, `glyphs` of
      the cache's data dictionary. */
  type Digest = s: string | |s| == 32 && forall i :: 0 <= i < |s| ==> IsHexDigit(s[i])
    witness "00000000000000000000000000000000"

  /** Which facets `create_element_id` folds in (its keyword arguments). */
  datatype FacetChoice = FacetChoice(
    useArgs: bool,
    useRender: bool,
    useContent: bool,
    addSlide: bool,
    slidePosition: bool,
    useSize: bool)

  /** The keyword defaults of `create_element_id`. */
  const DefaultFacets := FacetChoice(true, true, true, true, true, false)

  /** The subset the store uses to recognise an element by name, content
      and extra attributes only. */
  const CacheFacets := FacetChoice(false, true, true, false, false, false)

  /** What the builder needs to know about the current slide (`gcs()` and
      `document._slides[gcs()].element_keys`). */
  datatype SlideContext = SlideContext(slideId: string, elementKeys: seq<string>)

  /** `''.join('%s:%s' % (k, v) for k, v in args.items())`. */
  function JoinArgs(args: seq<(string, string)>): string {
    if |args| == 0 then "" else args[0].0 + ":" + args[0].1 + JoinArgs(args[1..])
  }

  /** The readable attributes named in `keys`, in list order; an attribute
      that cannot be read contributes nothing. */
  function ExtraText(keys: seq<string>, attributes: map<string, string>): string {
    if |keys| == 0 then ""
    else (if keys[0] in attributes then attributes[keys[0]] else "") + ExtraText(keys[1..], attributes)
  }

  function DigitChar(d: nat): char
    requires d < 10
  {
    "0123456789"[d]
  }

  /** `str(n)` for a natural number. */
  function NatToString(n: nat): (s: string)
    ensures |s| > 0
  {
    if n < 10 then [DigitChar(n)] else NatToString(n / 10) + [DigitChar(n % 10)]
  }

  /** `'(%s,%s)' % (str(w), str(h))`, each side read from `args` and falling
      back to the literal `None` when absent. */
  function SizeText(args: seq<(string, string)>): (r: string)
    ensures exists w, h :: DeclaredOrNone(args, "width", w) && DeclaredOrNone(args, "height", h)
                           && r == "(" + w + "," + h + ")"
  {
    var w := match ArgValue(args, "width") case Some(v) => v case None => "None";
    var h := match ArgValue(args, "height") case Some(v) => v case None => "None";
    assert DeclaredOrNone(args, "width", w) && DeclaredOrNone(args, "height", h);
    "(" + w + "," + h + ")"
  }

  /** `v` is what `args[key]` holds, or the literal `None` when `args` has
      no such key. */
  predicate DeclaredOrNone(args: seq<(string, string)>, key: string, v: string) {
    || (exists i :: 0 <= i < |args| && args[i] == (key, v))
    || (v == "None" && forall i :: 0 <= i < |args| ==> args[i].0 != key)
  }

  /** Facet 1: the current slide's id. */
  function SlideFacet(f: FacetChoice, ctx: SlideContext): string {
    if f.addSlide then ctx.slideId else ""
  }

  /** Facet 2: the `key:value` pairs of `args`, when the element has them. */
  function ArgsFacet(e: Element, f: FacetChoice): string {
    if f.useArgs && e.args.Some? then JoinArgs(e.args.value) else ""
  }

  /** Facet 3: the render routine name. */
  function NameFacet(e: Element, f: FacetChoice): string {
    if f.useRender && e.name.Some? then e.name.value else ""
  }

  /** Facet 4: `str(content)`. */
  function ContentFacet(e: Element, f: FacetChoice): string {
    if f.useContent && e.content.Some? then e.content.value else ""
  }

  /** Facet 5: the declared size; reading it needs `args`. */
  function SizeFacet(e: Element, f: FacetChoice): string
    requires f.useSize ==> e.args.Some?
  {
    if f.useSize then SizeText(e.args.value) else ""
  }

  /** Facet 6: how many elements the current slide already registered. */
  function PositionFacet(f: FacetChoice, ctx: SlideContext): string {
    if f.slidePosition then NatToString(|ctx.elementKeys|) else ""
  }

  /** Facet 7: the readable attributes named in `args_for_cache_id`. */
  function ExtraFacet(e: Element): string {
    if e.argsForCacheId.Some? then ExtraText(e.argsForCacheId.value, e.attributes) else ""
  }

  /** The text that is hashed: the seven facets appended in their fixed
      order with no delimiter. Asking for the size of an element without
      `args` fails, as the attribute lookup does. */
  function IdText(e: Element, f: FacetChoice, ctx: SlideContext): Result<string, CacheError> {
    if f.useSize && e.args.None? then Err(NoArgs)
    else
      Ok(SlideFacet(f, ctx) + ArgsFacet(e, f) + NameFacet(e, f) + ContentFacet(e, f)
         + SizeFacet(e, f) + PositionFacet(f, ctx) + ExtraFacet(e))
  }

  /** Reference definition of the id: the hash of the concatenated facets,
      `None` when they add up to nothing, and a fatal duplicate when the hash
      is already registered on the slide. */
  function ElementId(e: Element, f: FacetChoice, ctx: SlideContext, hash: string -> Digest)
    : (r: Result<Option<Digest>, CacheError>)
    ensures r.Ok? && r.value.Some? ==> r.value.value !in ctx.elementKeys
    ensures r.Err? && r.error.DuplicateId? ==> r.error.id in ctx.elementKeys
  {
    var text :- IdText(e, f, ctx);
    if text == "" then Ok(None)
    else if hash(text) in ctx.elementKeys then Err(DuplicateId(hash(text)))
    else Ok(Some(hash(text)))
  }

  /** The source's own step-by-step construction: a text buffer grows facet
      by facet, the argument pairs and extra attributes by loops. It computes
      exactly the reference id. */
  method CreateElementId(e: Element, f: FacetChoice, ctx: SlideContext, hash: string -> Digest)
    returns (r: Result<Option<Digest>, CacheError>)
    ensures r == ElementId(e, f, ctx, hash)
  {
    if f.useSize && e.args.None? {
      return Err(NoArgs);
    }
    var text := BuildIdText(e, f, ctx);
    if text == "" {
      r := Ok(None);
    } else if hash(text) in ctx.elementKeys {
      r := Err(DuplicateId(hash(text)));
    } else {
      r := Ok(Some(hash(text)));
    }
  }

  /** The growing `ct_to_hash` buffer: each enabled facet is appended in
      turn. The caller has already ruled out a size facet without `args`. */
  method BuildIdText(e: Element, f: FacetChoice, ctx: SlideContext) returns (text: string)
    requires f.useSize ==> e.args.Some?
    ensures IdText(e, f, ctx) == Ok(text)
  {
    text := "";
    if f.addSlide {
      text := text + ctx.slideId;
    }
    ghost var expected := SlideFacet(f, ctx);
    assert text == expected;
    if f.useArgs && e.args.Some? {
      var joined := JoinArgsLoop(e.args.value);
      text := text + joined;
    }
    expected := expected + ArgsFacet(e, f);
    assert text == expected;
    if f.useRender && e.name.Some? {
      text := text + e.name.value;
    }
    expected := expected + NameFacet(e, f);
    assert text == expected;
    if f.useContent && e.content.Some? {
      text := text + e.content.value;
    }
    expected := expected + ContentFacet(e, f);
    assert text == expected;
    if f.useSize {
      var h := match ArgValue(e.args.value, "height") case Some(v) => v case None => "None";
      var w := match ArgValue(e.args.value, "width") case Some(v) => v case None => "None";
      var size := "(" + w + "," + h + ")";
      text := text + size;
    }
    expected := expected + SizeFacet(e, f);
    assert text == expected;
    if f.slidePosition {
      text := text + NatToString(|ctx.elementKeys|);
    }
    expected := expected + PositionFacet(f, ctx);
    assert text == expected;
    if e.argsForCacheId.Some? {
      var extra := ExtraTextLoop(e.argsForCacheId.value, e.attributes);
      text := text + extra;
    }
    expected := expected + ExtraFacet(e);
    assert text == expected;
  }

  /** The list comprehension joining the `key:value` pairs, as a loop. */
  method JoinArgsLoop(args: seq<(string, string)>) returns (joined: string)
    ensures joined == JoinArgs(args)
  {
    joined := "";
    var i := 0;
    while i < |args|
      invariant 0 <= i <= |args|
      invariant joined + JoinArgs(args[i..]) == JoinArgs(args)
    {
      assert args[i..][1..] == args[i + 1..];
      joined := joined + args[i].0 + ":" + args[i].1;
      i := i + 1;
    }
    assert args[i..] == [];
  }

  /** The loop over `args_for_cache_id`: each readable attribute's text is
      appended, an unreadable one is skipped. */
  method ExtraTextLoop(keys: seq<string>, attributes: map<string, string>) returns (text: string)
    ensures text == ExtraText(keys, attributes)
  {
    text := "";
    var j := 0;
    while j < |keys|
      invariant 0 <= j <= |keys|
      invariant text + ExtraText(keys[j..], attributes) == ExtraText(keys, attributes)
    {
      assert keys[j..][1..] == keys[j + 1..];
      if keys[j] in attributes {
        text := text + attributes[keys[j]];
      }
      j := j + 1;
    }
    assert keys[j..] == [];
  }

  /** An id is skipped exactly when no facet contributes any text. */
  lemma IdIsNoneIffNoFacetText(e: Element, f: FacetChoice, ctx: SlideContext, hash: string -> Digest)
    requires f.useSize ==> e.args.Some?
    ensures ElementId(e, f, ctx, hash) == Ok(None) <==>
      && SlideFacet(f, ctx) == "" && ArgsFacet(e, f) == "" && NameFacet(e, f) == ""
      && ContentFacet(e, f) == "" && SizeFacet(e, f) == "" && PositionFacet(f, ctx) == ""
      && ExtraFacet(e) == ""
  {
  }

  /** Otherwise the id is the hash of the facets in their fixed order, unless
      that hash is already registered on the slide, which is fatal. */
  lemma IdIsHashOfFacets(e: Element, f: FacetChoice, ctx: SlideContext, hash: string -> Digest)
    requires f.useSize ==> e.args.Some?
    ensures var text := SlideFacet(f, ctx) + ArgsFacet(e, f) + NameFacet(e, f) + ContentFacet(e, f)
                        + SizeFacet(e, f) + PositionFacet(f, ctx) + ExtraFacet(e);
      && (text != "" && hash(text) !in ctx.elementKeys ==> ElementId(e, f, ctx, hash) == Ok(Some(hash(text))))
      && (text != "" && hash(text) in ctx.elementKeys ==> ElementId(e, f, ctx, hash) == Err(DuplicateId(hash(text))))
  {
  }

  /** Appending a name to `args_for_cache_id` appends that attribute's text
      when it is readable and nothing at all when it is not. */
  lemma {:induction false} ExtraTextAppend(keys: seq<string>, key: string, attributes: map<string, string>)
    ensures key in attributes ==> ExtraText(keys + [key], attributes) == ExtraText(keys, attributes) + attributes[key]
    ensures key !in attributes ==> ExtraText(keys + [key], attributes) == ExtraText(keys, attributes)
  {
    if |keys| == 0 {
      assert keys + [key] == [key];
      assert [key][1..] == [];
    } else {
      assert (keys + [key])[1..] == keys[1..] + [key];
      ExtraTextAppend(keys[1..], key, attributes);
    }
  }

  /** The text the store hashes ignores where the element sits: the slide,
      its `args` and its position do not enter it, so two elements agreeing
      on name, content and extra attributes hash the same text on any slide.
      Only the duplicate test still reads the current slide's registered ids:
      when both calls return normally they return the same id, and when the
      hash is registered on neither slide both calls do return normally. */
  lemma CacheIdIgnoresPlacement(e1: Element, e2: Element, ctx1: SlideContext, ctx2: SlideContext,
                                hash: string -> Digest)
    requires e1.name == e2.name && e1.content == e2.content
    requires e1.argsForCacheId == e2.argsForCacheId && e1.attributes == e2.attributes
    ensures IdText(e1, CacheFacets, ctx1) == IdText(e2, CacheFacets, ctx2)
    ensures ElementId(e1, CacheFacets, ctx1, hash).Ok? && ElementId(e2, CacheFacets, ctx2, hash).Ok? ==>
              ElementId(e1, CacheFacets, ctx1, hash) == ElementId(e2, CacheFacets, ctx2, hash)
    ensures var text := IdText(e1, CacheFacets, ctx1).value;
            hash(text) !in ctx1.elementKeys && hash(text) !in ctx2.elementKeys ==>
              ElementId(e1, CacheFacets, ctx1, hash) == ElementId(e2, CacheFacets, ctx2, hash)
              && ElementId(e1, CacheFacets, ctx1, hash).Ok?
  {
  }

  /** Facets are joined without a delimiter, so a name/content split is not
      recoverable from the id: the element named `ab` with content `c` and
      the element named `a` with content `bc` share one id. */
  lemma UndelimitedFacetsCollide(base: Element, ctx: SlideContext, hash: string -> Digest)
    ensures var e1 := base.(name := Some("ab"), content := Some("c"));
            var e2 := base.(name := Some("a"), content := Some("bc"));
            e1 != e2 && ElementId(e1, CacheFacets, ctx, hash) == ElementId(e2, CacheFacets, ctx, hash)
  {
    var e1 := base.(name := Some("ab"), content := Some("c"));
    var e2 := base.(name := Some("a"), content := Some("bc"));
    var x := ExtraFacet(base);
    assert ExtraFacet(e1) == x && ExtraFacet(e2) == x;
    assert IdText(e1, CacheFacets, ctx) == Ok("" + "" + "ab" + "c" + "" + "" + x);
    assert IdText(e2, CacheFacets, ctx) == Ok("" + "" + "a" + "bc" + "" + "" + x);
    assert "" + "" + "ab" + "c" + "" + "" + x == "abc" + x;
    assert "" + "" + "a" + "bc" + "" + "" + x == "abc" + x;
    assert e1.name != e2.name;
  }
}

=== FILE: elements.dfy ===
/** The renderable element ("beampy module") as the cache sees it: only the
    attributes the cache reads or writes. */
module Elements {
  import opened Common

  /** Raw bytes of one rendered output. */
  type Bytes = seq<bv8>

  /** A layout length (width or height) as reported by the positioner. */
  type Length = real

  /** The kind the cache refuses to handle. */
  const GroupKind: string := "group"

  datatype Element = Element(
    /** The element's `type` attribute. */
    kind: string,
    /** The element's `name` attribute (its render routine name), if any. */
    name: Option<string>,
    /** Whether the element has been rendered in this run. */
    rendered: bool,
    /** `str(content)`; the same text is used as the path of a source file. */
    content: Option<string>,
    /** The `args` dictionary as `(key, str(value))` pairs in the dictionary's
        own order, or `None` when the element has no `args` attribute. */
    args: Option<seq<(string, string)>>,
    /** `args_for_cache_id`: extra attribute names folded into the id. */
    argsForCacheId: Option<seq<string>>,
    /** The attributes `getattr` can read, with their `str` value; a name
        missing here is one whose lookup fails. */
    attributes: map<string, string>,
    /** The three rendered outputs. */
    svgout: Option<Bytes>,
    htmlout: Option<Bytes>,
    jsout: Option<Bytes>,
    /** Size held by the element's positioner. */
    width: Length,
    height: Length)
  {
    /** The element's `update_size` operation, reduced to its effect on the
        positioner's size. */
    function UpdateSize(w: Length, h: Length): (e: Element)
      ensures e.width == w && e.height == h
      ensures e.(width := width, height := height) == this
    {
      this.(width := w, height := h)
    }
  }

  /** Value of the first `key` entry of an argument list; a Python dict has
      unique keys, so this is the value `args[key]` reads. */
  function ArgValue(args: seq<(string, string)>, key: string): (r: Option<string>)
    ensures r.Some? <==> exists i :: 0 <= i < |args| && args[i].0 == key
    ensures r.Some? ==> exists i :: 0 <= i < |args| && args[i] == (key, r.value)
  {
    if |args| == 0 then None
    else if args[0].0 == key then Some(args[0].1)
    else
      var r := ArgValue(args[1..], key);
      assert forall i :: 0 < i < |args| ==> args[i] == args[1..][i - 1];
      r
  }
}

=== FILE: folders.dfy ===
/** The cache folder: a flat directory of gzip-compressed files. Compression
    and pickling are reversible, so a file is modelled by what it holds:
    either the raw bytes of one rendered output, or the dumped data
    dictionary. A folder that does not exist is `None`. */
module Folders {
  import opened Common
  import opened Elements
  import opened CacheRecords

  datatype File = Blob(bytes: Bytes) | Dump(data: CacheData)

  type Files = map<string, File>

  const Suffix: string := ".pklz"

  /** Name of the file holding the data dictionary. */
  const DataFile: string := "data.pklz"

  /** The file a blob called `name` is stored in. */
  function BlobPath(name: string): string {
    name + Suffix
  }

  predicate EndsWith(s: string, suffix: string) {
    |s| >= |suffix| && s[|s| - |suffix|..] == suffix
  }

  /** Whether `glob('*.pklz')` lists the file: the name ends in `.pklz` and,
      as for every `*` pattern, does not start with a dot. */
  predicate MatchesGlob(n: string) {
    EndsWith(n, Suffix) && n[0] != '.'
  }

  /** `read_file_cache`: the bytes stored under `name`. Opening fails when the
      folder or the file is missing; a file that holds the dumped dictionary
      rather than bytes is reported as corrupt. */
  function ReadFileCache(folder: Option<Files>, name: string): (r: Result<Bytes, CacheError>)
    ensures r.Ok? ==> folder.Some? && BlobPath(name) in folder.value
                      && folder.value[BlobPath(name)] == Blob(r.value)
    ensures r.Err? ==> folder.None? || BlobPath(name) !in folder.value
                       || folder.value[BlobPath(name)].Dump?
  {
    var path := BlobPath(name);
    if folder.None? || path !in folder.value then Err(FileNotFound(path))
    else match folder.value[path]
      case Blob(b) => Ok(b)
      case Dump(_) => Err(CorruptFile(path))
  }

  /** `write_file_cache`: stores `content` under `name`, replacing any file of
      that name. Opening for writing fails when the folder is missing. */
  function WriteFileCache(folder: Option<Files>, name: string, content: Bytes): (r: Result<Files, CacheError>)
    ensures r.Err? <==> folder.None?
    ensures r.Ok? ==> ReadFileCache(Some(r.value), name) == Ok(content)
    ensures r.Ok? ==> r.value.Keys == folder.value.Keys + {BlobPath(name)}
    ensures r.Ok? ==> forall m :: BlobPath(m) != BlobPath(name) ==>
                        ReadFileCache(Some(r.value), m) == ReadFileCache(folder, m)
    ensures r.Ok? ==> forall p :: p in folder.value && p != BlobPath(name) ==> r.value[p] == folder.value[p]
  {
    if folder.None? then Err(FileNotFound(BlobPath(name)))
    else Ok(folder.value[BlobPath(name) := Blob(content)])
  }

  /** `remove_files`: deletes every file `glob('*.pklz')` lists, the data
      file included, and keeps every other file as it was. */
  function RemoveFiles(files: Files): (r: Files)
    ensures DataFile !in r
    ensures forall n :: n in r ==> !MatchesGlob(n)
    ensures forall n :: n in files && !MatchesGlob(n) ==> n in r && r[n] == files[n]
    ensures r.Keys <= files.Keys
  {
    assert MatchesGlob(DataFile);
    map n | n in files && !MatchesGlob(n) :: files[n]
  }

  /** After `remove_files` no blob can be read back, whatever its name, as
      long as the name does not start with a dot (which would hide the file
      from the glob). */
  lemma RemovedBlobsAreGone(files: Files, name: string)
    requires name != [] && name[0] != '.'
    ensures ReadFileCache(Some(RemoveFiles(files)), name).Err?
  {
  }
}
